=== FILE: README.md ===
# sphero-ball joystick controller — a Dafny model

This project models the decision and heading logic of `SpheroController` in
`spheroball/driveWithJoystick.py`. That script drives a Sphero toy from a
game controller. Button 1 starts a fixed autonomous course. R1 and L1 turn
an operator-chosen base heading by 45 degrees. The Y axis rolls the toy
forward or backward along that base. Every 30 seconds a battery check sets
the front LED to a colour band and stops the program at a critical voltage.

The vendor SDK is replaced by a **command trace**. Each call the controller
makes on the connection handle (`set_speed`, `set_heading`, `roll`,
`set_front_led`) and each `time.sleep` becomes one `Trace.Command`, in order.
The model is a set of pure functions and lemmas over these traces:

- `Heading` — reduction of unbounded integer headings modulo 360. Python's
  `%` with a positive divisor equals Dafny's `%` on `int`.
- `Trace` — the commands, plus order-preserving queries: the `set_heading`
  calls, the `roll` calls, and the last motion command.
- `Motion` — the tuning constants, the joystick dead zone, the
  tiles-to-seconds conversion, and the three segment helpers.
- `Course` — `run_course` as a trace, built from a table of legs. Each leg
  is a relative turn plus a distance.
- `Battery` — voltage banding and the critical-voltage stop.
- `Controller` — the controller state (`base_heading`, `previous_button`,
  `auto_running`), one pass of the `control_toy` loop as a function
  `Tick(state, inputs)`, and lemmas over sequences of passes.

Joystick axes, voltages and durations are Python floats. Here they are exact
`real`s. pygame's `get_button` returns a boolean, so buttons are `bool`.

Where the code and its prose description differ, the model follows the
code:

- The course's first stretch issues no `set_heading`. It drives along
  whatever heading the toy has. Only the eight later stretches turn first.
- The accumulated course heading `h` is never reduced. It is reduced only
  when passed to `set_heading`/`roll`, so the last stretch goes to
  `(start + 360) % 360`, which equals `start % 360`.
- In the source, `def run_course` is indented 2 spaces inside a 4-space
  class body, which matches no enclosing indentation level, so Python
  rejects the file with an IndentationError. It is modelled as the
  controller method it is evidently meant to be; `control_toy` calls it as
  one.
- `sys.exit` raises `SystemExit`. The handler `except Exception` in
  `print_battery_level` does not catch it, so a critical reading ends the
  loop (`Outcome.BatteryExit`). Any other exception in the battery check is
  swallowed. Such a failed read is `voltage == None` and issues no command.
- An SDK call that raises inside `run_course` is an input (`fault`, the
  index of the failing call). The `finally` block still clears
  `auto_running`. The exception then leaves the loop (`Outcome.CourseFault`).

## Model

| member | source | states |
|---|---|---|
| Heading.Normalize | spheroball/driveWithJoystick.py:62-64 | the heading handed to the toy is in [0, 360), points the same way as the unreduced heading, and is unchanged if already in range |
| Trace.LastMotionIsLast | spheroball/driveWithJoystick.py:55-57 | the last motion command of a trace (the one "ends stopped" looks at, e.g. the set_speed(0) before the closing pause) has no speed, heading or roll command after it |
| Motion.Dz | spheroball/driveWithJoystick.py:43-44 | readings with absolute value below 0.15 become 0; all others pass through unchanged |
| Motion.DzIdempotent | spheroball/driveWithJoystick.py:43-44 | applying the dead zone twice is the same as applying it once |
| Motion.DzKeepsDispatch | spheroball/driveWithJoystick.py:193-198 | for any threshold at least the dead zone (0.7 included), the filtered axis crosses it exactly when the raw axis does |
| Motion.TilesToSeconds | spheroball/driveWithJoystick.py:46-48 | the duration is tiles x 50 / 30 x 0.95 = 19/12 s per tile, because the speed floor never applies; it is non-negative for a non-negative distance |
| Motion.TilesToSecondsLinear | spheroball/driveWithJoystick.py:46-48 | the conversion is additive and scales with the distance |
| Motion.TilesToSecondsMonotone | spheroball/driveWithJoystick.py:46-48 | a longer stretch never gets a shorter duration |
| Motion.DriveKeepHeading | spheroball/driveWithJoystick.py:50-57 | issues no set_heading and no roll; set_speed(speed), the pause of the converted duration and set_speed(0) come one right after the other, and that set_speed(speed) is the only non-zero speed it sets, so the toy drives for exactly that time; it ends with the toy stopped |
| Motion.DriveKeepHeadingCalls | spheroball/driveWithJoystick.py:50-57 | the stretch contributes no set_heading and no roll call, so the heading the toy had is kept |
| Motion.RollAbs | spheroball/driveWithJoystick.py:59-66 | every heading it issues is in [0, 360), its roll comes right after the turn to the same heading and the settle pause, and it ends with the toy stopped |
| Motion.RollAbsCalls | spheroball/driveWithJoystick.py:59-66 | exactly one set_heading and one roll, both along h mod 360; the roll lasts the converted duration of the distance |
| Motion.TurnAbs | spheroball/driveWithJoystick.py:68-72 | stops, then turns to a heading in [0, 360); never rolls or drives |
| Motion.TurnAbsCalls | spheroball/driveWithJoystick.py:68-72 | exactly one set_heading, to h mod 360 |
| Course.Distances | spheroball/driveWithJoystick.py:76-80 | the nine stretch distances are 4.5, 4, 2, 2, 4, 2, 2, 4, 4 tiles, in the docstring's order |
| Course.CourseTurns | spheroball/driveWithJoystick.py:92-121 | the turns are R, R, R, L, L, R, R, R; the accumulated turns are 90, 180, 270, 180, 90, 180, 270, 360, a net full turn |
| Course.HeadingPlanAt | spheroball/driveWithJoystick.py:92-122 | in the reference list of headings (one per leg, each turned from the last), entry i is the start plus the first i+1 turns, mod 360 |
| Course.RollPlanAt | spheroball/driveWithJoystick.py:92-122 | in the reference list of rolls, entry i is at speed 60 along entry i's heading for the converted duration of leg i's distance |
| Course.LegsHeadingsPlan | spheroball/driveWithJoystick.py:92-122 | the set_heading calls the legs issue are exactly the reference list of headings, in order |
| Course.LegsRollsPlan | spheroball/driveWithJoystick.py:92-122 | the roll calls the legs issue are exactly the reference list of rolls, in order |
| Course.LegsHeadings | spheroball/driveWithJoystick.py:92-122 | for any list of legs, the i-th set_heading points to the start plus the first i+1 turns, mod 360, and no other heading is set |
| Course.LegsRolls | spheroball/driveWithJoystick.py:92-122 | for any list of legs, the i-th roll is at speed 60 along that same heading, for the converted duration of the i-th distance |
| Course.LegsTrace | spheroball/driveWithJoystick.py:92-122 | the turning stretches, one `_roll_abs` per leg at the running heading: every heading handed to the toy is in [0, 360), and with at least one leg the toy ends stopped |
| Course.CourseTrace | spheroball/driveWithJoystick.py:86-124 | the course's last call is set_speed(0) and every heading it hands to the toy is in [0, 360) |
| Course.CourseLength | spheroball/driveWithJoystick.py:86-124 | the course makes 54 calls whatever the start heading: 5 for the first stretch, 6 per turning stretch and the final stop |
| Course.CourseHeadings | spheroball/driveWithJoystick.py:87-122 | the course sets eight headings, start + 90, +180, +270, +180, +90, +180, +270, +360, each mod 360; the last equals start mod 360 |
| Course.CourseRolls | spheroball/driveWithJoystick.py:92-122 | the course rolls eight times, all at speed 60; the i-th roll's heading is start plus the i-th accumulated turn, mod 360, and its duration is the converted distance of the i-th turning stretch |
| Course.CourseFirstStretch | spheroball/driveWithJoystick.py:86-90 | the first five calls are the 4.5-tile stretch and set no heading; calls 2-4 are set_speed(60), the pause for 4.5 tiles and set_speed(0), so the toy drives for exactly that time |
| Course.LegsSettled | spheroball/driveWithJoystick.py:59-66 | for any list of legs, every roll comes right after a set_heading to its own heading and the settle pause |
| Course.CourseSettled | spheroball/driveWithJoystick.py:86-124 | every roll of the course comes right after a set_heading to its own heading and the settle pause |
| Course.CourseRollsFollowHeadings | spheroball/driveWithJoystick.py:92-122 | the i-th roll's heading equals the i-th heading set, and each roll comes right after the set_heading to that heading and the settle pause |
| Battery.BandOf | spheroball/driveWithJoystick.py:154-157 | exactly one band per voltage: green above 4.1, yellow in (3.9, 4.1], orange in (3.7, 3.9], red at or below 3.7 |
| Battery.BandMonotone | spheroball/driveWithJoystick.py:154-157 | a higher voltage never gives a lower band |
| Battery.BandColorInjective | spheroball/driveWithJoystick.py:154-157 | the four bands light four different LED colours |
| Battery.BatteryReport | spheroball/driveWithJoystick.py:150-158 | the LED is set green above 4.1 V, yellow in (3.9, 4.1], orange in (3.7, 3.9] and red at or below 3.7; the program stops exactly when the voltage is below 3.5, and a stopping reading has lit the LED red |
| Battery.StopShowsRed | spheroball/driveWithJoystick.py:154-158 | a reading that stops the program has already lit the LED red |
| Controller.RunCourse | spheroball/driveWithJoystick.py:75-127 | auto_running is true while the course runs and false afterwards, even when a call raises; a run completes exactly when no call fails; a completed run issues the whole course and ends with set_speed(0); a failed run issues exactly the calls before the failing one |
| Controller.DuringCourseBrakes | spheroball/driveWithJoystick.py:180-207 | while the course runs auto_running is set, so a manual pass in that state only issues set_speed(0) and changes nothing else |
| Controller.Nudge | spheroball/driveWithJoystick.py:183-190 | one R1/L1 adjustment sets the base to (base + delta) mod 360 and leaves the toy pointing that way |
| Controller.Steer | spheroball/driveWithJoystick.py:182-190 | after R1 and/or L1 the base heading is in [0, 360): base+45 with R1 only, base-45 with L1 only, base with both (mod 360); with neither it is untouched and nothing is issued |
| Controller.BothNudgesCancel | spheroball/driveWithJoystick.py:183-190 | pressing both buttons in one pass leaves an in-range base heading unchanged |
| Controller.Opposite | spheroball/driveWithJoystick.py:199 | the backward heading is in [0, 360), differs from the base by 180 mod 360, and for an in-range base is never equal to it |
| Controller.ManualDrive | spheroball/driveWithJoystick.py:192-204 | Y below -0.7 rolls once at speed 50 along the base; Y above 0.7 rolls once at speed 40 along the opposite heading; otherwise only set_speed(0); every roll comes right after the set_heading to its own heading; the toy ends stopped |
| Controller.Manual | spheroball/driveWithJoystick.py:180-207 | the manual part of a pass keeps the button memory and the auto-run flag, keeps the base heading in range, and leaves the toy stopped |
| Controller.BatteryTrace | spheroball/driveWithJoystick.py:150-160 | a due check whose read succeeds sets exactly one LED command; a read that raises sets nothing; the check never moves the toy, and a reading that ends the program lights the LED red |
| Controller.Tick | spheroball/driveWithJoystick.py:167-207 | a pass ends the loop exactly on a critical battery reading or a failed course; otherwise previous_button becomes button 1's reading and the toy ends stopped; auto_running stays false and the base heading stays in range |
| Controller.TickContinuesIff | spheroball/driveWithJoystick.py:158-178 | the loop goes on after a pass exactly when the battery check does not stop the program and, if button 1 starts the course, no call of the course fails |
| Controller.ValidTickSteers | spheroball/driveWithJoystick.py:174-207 | between passes auto_running is false, so the braking branch is never taken: a pass is battery check, course if started, then R1/L1 and the Y axis |
| Controller.InitialValid | spheroball/driveWithJoystick.py:37-40 | the constructed controller satisfies the loop invariant |
| Controller.LoopAppend | spheroball/driveWithJoystick.py:167-207 | for any pass function, when none of the passes `a` ends the loop, the loop over `a` then `b` picks up `b` in the state `a` left, and counted passes add up |
| Controller.LoopStops | spheroball/driveWithJoystick.py:167-207 | for any pass function, once a pass ends the loop, later passes change nothing and count for nothing |
| Controller.Count | spheroball/driveWithJoystick.py:167-207 | the loop takes at most one counted pass per input pass |
| Controller.Starts | spheroball/driveWithJoystick.py:174-178 | the number of passes that start the course, up to the pass that ends the loop, is at most the number of passes |
| Controller.RunAppend | spheroball/driveWithJoystick.py:167-207 | `Run`, the `while` loop with one `Tick` per pass: passes run in order, each starting from the state the previous one left, and the course starts add up over them |
| Controller.RunStops | spheroball/driveWithJoystick.py:167-207 | `Run` stops at the first pass that ends the loop: later passes change nothing and start no course |
| Controller.RunKeepsValid | spheroball/driveWithJoystick.py:163-207 | every state the loop reaches keeps the base heading in [0, 360) and auto_running false |
| Controller.HeldButtonStartsOnce | spheroball/driveWithJoystick.py:174-178 | holding button 1 over consecutive passes starts the course at most once, and never if it was already held |
| Controller.PressStartsOnce | spheroball/driveWithJoystick.py:158-178 | a release followed by a held press starts the course exactly once, unless the battery check ends the program on the release pass or the press pass (sys.exit at line 158 comes before button 1 is read) |

## Left out

- pygame initialisation and event polling. The button and axis readings are inputs to `Controller.Tick`.
- Toy discovery, connection and the `with` block (`discover_toy`, `connect_toy`, `main`, the command line). These are foreign calls.
- The SDK itself. Each call is an entry in the trace, and the toy's reaction is not modelled.
- The SDK's parameter order for `roll`. The SDK is not part of this model. `Trace.Roll` names the arguments by what the call sites evidently intend: speed, heading, seconds. If the SDK's `roll` takes the heading first, the toy would receive them swapped. Phrases such as "the roll travels along the heading" describe the call sites' intent, not the toy's motion.
- `api.get_heading()` and `Power.get_battery_voltage`. They are the inputs `toyHeading` and `voltage`.
- Wall-clock time: the 30-second battery timer is the input `batteryDue`, `time.sleep` is an inert `Sleep` entry, and the elapsed-time print is dropped.
- Console output, and `sys.exit` as process termination. Termination is the outcome `BatteryExit`.
- Exceptions other than a failed battery read and a failed course call. Other SDK calls in a pass are assumed not to raise.
- The `set_speed(0)` after the `while` loop. `is_running` is never cleared, so the loop ends only through an exception or `sys.exit`.
- IEEE float rounding in the tiles conversion and the threshold comparisons. Exact reals are used instead.
- The unused `TURN_DEG` constant and the `buttons` table beyond buttons 1, R1 and L1.

=== FILE: battery.dfy ===
/**
 The battery check run every thirty seconds: the front LED shows one of four
 colour bands for the measured voltage, and a critically low voltage ends
 the program.
 */
module Battery {
  import opened Trace

  datatype Band = Green | Yellow | Orange | Red

  /** Bands ordered by charge: Red is the emptiest, Green the fullest. */
  function Rank(b: Band): nat {
    match b
    case Red => 0
    case Orange => 1
    case Yellow => 2
    case Green => 3
  }

  /** The LED colour of each band. */
  function BandColor(b: Band): Color {
    match b
    case Green => Color(0, 255, 0)
    case Yellow => Color(255, 255, 0)
    case Orange => Color(255, 100, 0)
    case Red => Color(255, 0, 0)
  }

  /** Below this voltage the program stops. */
  const Critical: real := 3.5

  /**
   The band for voltage `v`, thresholds tried from the top: each band is
   the half-open interval between two thresholds.
   */
  function BandOf(v: real): (b: Band)
    ensures b == Green <==> v > 4.1
    ensures b == Yellow <==> 3.9 < v <= 4.1
    ensures b == Orange <==> 3.7 < v <= 3.9
    ensures b == Red <==> v <= 3.7
  {
    if v > 4.1 then Green
    else if v > 3.9 then Yellow
    else if v > 3.7 then Orange
    else Red
  }

  /** Different bands light the LED differently, so the colour tells the band. */
  lemma BandColorInjective(a: Band, b: Band)
    ensures BandColor(a) == BandColor(b) ==> a == b
  {
  }

  /** A higher voltage never shows an emptier band. */
  lemma BandMonotone(v: real, w: real)
    requires v <= w
    ensures Rank(BandOf(v)) <= Rank(BandOf(w))
  {
  }

  /** What one battery check does with a voltage reading. */
  datatype Report = Report(led: Command, stop: bool)

  /**
   The pure part of `print_battery_level`: the LED command for the band,
   and whether the reading is critical.
   */
  function BatteryReport(v: real): (r: Report)
    ensures v > 4.1 ==> r.led == SetFrontLed(Color(0, 255, 0))
    ensures 3.9 < v <= 4.1 ==> r.led == SetFrontLed(Color(255, 255, 0))
    ensures 3.7 < v <= 3.9 ==> r.led == SetFrontLed(Color(255, 100, 0))
    ensures v <= 3.7 ==> r.led == SetFrontLed(Color(255, 0, 0))
    ensures r.stop <==> v < Critical
    ensures r.stop ==> r.led == SetFrontLed(Color(255, 0, 0))
  {
    Report(SetFrontLed(BandColor(BandOf(v))), v < Critical)
  }

  /** A reading that stops the program has already turned the LED red. */
  lemma StopShowsRed(v: real)
    requires BatteryReport(v).stop
    ensures BandOf(v) == Red
    ensures BatteryReport(v).led == SetFrontLed(Color(255, 0, 0))
  {
  }
}

=== FILE: controller.dfy ===
/**
 The controller object and one pass of its polling loop. Button and axis
 readings, the heading the toy reports, the battery reading and the
 battery timer arrive as inputs; every SDK call the pass makes is returned
 as a command trace. `run_course` blocks the loop until it returns, so the
 whole course happens inside the pass that detected the button press.
 */
module Controller {
  import opened Wrappers
  import opened Heading
  import opened Trace
  import opened Motion
  import opened Course
  import opened Battery

  /** The fields of the controller that survive from one pass to the next. */
  datatype State = State(baseHeading: int, previousButton: bool, autoRunning: bool)

  /** As constructed: heading 0, button 1 released, no course running. */
  const Initial: State := State(0, false, false)

  /** What holds between passes of the loop. */
  predicate Valid(s: State) {
    InRange(s.baseHeading) && !s.autoRunning
  }

  /**
   Everything one pass reads from outside: whether the 30-second battery
   timer has expired, the battery voltage (None when reading it raised),
   buttons 1, R1 and L1, the Y axis, the heading the toy reports when a
   course starts, and optionally the index of the course call that raises.
   */
  datatype Inputs = Inputs(
    batteryDue: bool, voltage: Option<real>,
    button1: bool, r1: bool, l1: bool, axisY: real,
    toyHeading: int, fault: Option<nat>)

  // ---------- run_course ----------

  /**
   One call of `run_course`: the controller while the course runs and after
   it returns, the calls made, and whether every call succeeded.
   */
  datatype CourseRun = CourseRun(during: State, after: State, trace: seq<Command>, completed: bool)

  /**
   `run_course`: sets the auto-run flag, issues the course, and clears the
   flag on the way out whether or not an SDK call raised. When call number
   `k` raises, only the calls before it were made.
   */
  function RunCourse(s: State, start: int, fault: Option<nat>): (r: CourseRun)
    ensures r.during == s.(autoRunning := true)
    ensures r.after == s.(autoRunning := false)
    ensures r.completed <==> fault.None? || fault.value >= |CourseTrace(start)|
    ensures r.completed ==> r.trace == CourseTrace(start)
    ensures !r.completed ==> r.trace == CourseTrace(start)[..fault.value]
    ensures r.trace <= CourseTrace(start)
  {
    var during := s.(autoRunning := true);
    var full := CourseTrace(start);
    var after := during.(autoRunning := false);
    if fault.Some? && fault.value < |full| then CourseRun(during, after, full[..fault.value], false)
    else CourseRun(during, after, full, true)
  }

  // ---------- manual steering ----------

  /** The base heading after R1/L1, with the calls that announce it. */
  datatype Steered = Steered(heading: int, trace: seq<Command>)

  /** Degrees one R1 or L1 press turns the base heading. */
  const NudgeDegrees: int := 45
  /** Pause after each R1/L1 adjustment, in seconds. */
  const NudgePause: real := 0.25

  /** One R1 or L1 adjustment: stop, point along the new base heading, pause. */
  function Nudge(base: int, delta: int): (r: Steered)
    ensures r.heading == Normalize(base + delta)
    ensures HeadingsInRange(r.trace)
    ensures LastMotion(r.trace) == Some(SetHeading(r.heading))
  {
    var h := Normalize(base + delta);
    var t := [SetSpeed(0), SetHeading(h), Sleep(NudgePause)];
    assert LastMotion(t) == Some(SetHeading(h));
    Steered(h, t)
  }

  /**
   R1 turns the base heading 45 degrees right, then L1 turns it 45 degrees
   left; each adjustment stops the toy and points it along the new base.
   */
  function Steer(base: int, r1: bool, l1: bool): (r: Steered)
    ensures (r1 || l1) ==> InRange(r.heading)
    ensures r1 && !l1 ==> r.heading == Normalize(base + NudgeDegrees)
    ensures !r1 && l1 ==> r.heading == Normalize(base - NudgeDegrees)
    ensures r1 && l1 ==> r.heading == Normalize(base)
    ensures !r1 && !l1 ==> r == Steered(base, [])
    ensures HeadingsInRange(r.trace)
    ensures (r1 || l1) ==> LastMotion(r.trace) == Some(SetHeading(r.heading))
  {
    var right := if r1 then Nudge(base, NudgeDegrees) else Steered(base, []);
    var left := if l1 then Nudge(right.heading, -NudgeDegrees) else Steered(right.heading, []);
    HeadingsInRangeAppend(right.trace, left.trace);
    LastMotionAppend(right.trace, left.trace);
    NudgeBack(base);
    Steered(left.heading, right.trace + left.trace)
  }

  /** A right nudge followed by a left nudge points where the base pointed. */
  lemma NudgeBack(base: int)
    ensures Normalize(Normalize(base + NudgeDegrees) + -NudgeDegrees) == Normalize(base)
  {
    NormalizeAdd(base + NudgeDegrees, -NudgeDegrees);
  }

  /** Pressing R1 and L1 in the same pass leaves a valid base heading where it was. */
  lemma BothNudgesCancel(base: int)
    requires InRange(base)
    ensures Steer(base, true, true).heading == base
  {
  }

  // ---------- manual driving ----------

  /** Stick deflection beyond which the Y axis drives the toy. */
  const DriveThreshold: real := 0.7
  const ForwardSpeed: int := 50
  const BackwardSpeed: int := 40
  /** Duration of one manual roll, in seconds. */
  const ManualRollSecs: real := 0.8

  /** The heading opposite `base`, in [0, 360). */
  function Opposite(base: int): (back: int)
    ensures InRange(back)
    ensures (back - base) % 360 == 180
    ensures InRange(base) ==> back != base && (back - base == 180 || base - back == 180)
  {
    Normalize(base + 180)
  }

  /**
   The Y axis after the dead zone: pushed forward past the threshold it
   rolls along the base heading at speed 50, pulled back past it it rolls
   the opposite way at speed 40, otherwise it only stops the toy.
   */
  function ManualDrive(base: int, axis: real): (t: seq<Command>)
    ensures axis < -DriveThreshold ==>
      Rolls(t) == [Roll(ForwardSpeed, base, ManualRollSecs)] && Headings(t) == [SetHeading(base)]
    ensures axis > DriveThreshold ==>
      Rolls(t) == [Roll(BackwardSpeed, Opposite(base), ManualRollSecs)]
      && Headings(t) == [SetHeading(Opposite(base))]
    ensures -DriveThreshold <= axis <= DriveThreshold ==> t == [SetSpeed(0)]
    ensures forall j :: 0 <= j < |t| && t[j].Roll? ==> 1 <= j && t[j - 1] == SetHeading(t[j].heading)
    ensures EndsStopped(t)
  {
    var y := Dz(axis);
    DzKeepsDispatch(axis, DriveThreshold);
    if y < -DriveThreshold then
      var t := [SetSpeed(0), SetHeading(base), Roll(ForwardSpeed, base, ManualRollSecs), SetSpeed(0)];
      FilterOne(t, 1, HeadingCall);
      FilterOne(t, 2, RollCall);
      t
    else if y > DriveThreshold then
      var back := Opposite(base);
      var t := [SetSpeed(0), SetHeading(back), Roll(BackwardSpeed, back, ManualRollSecs), SetSpeed(0)];
      FilterOne(t, 1, HeadingCall);
      FilterOne(t, 2, RollCall);
      t
    else
      [SetSpeed(0)]
  }

  // ---------- one pass of control_toy ----------

  datatype Outcome =
    | Continue
    /** The battery check called `sys.exit`, which the broad handler does not catch. */
    | BatteryExit
    /** An SDK call inside the course raised; the exception leaves the loop. */
    | CourseFault

  /** The controller after one pass, the calls of that pass, and how it ended. */
  datatype Step = Step(state: State, trace: seq<Command>, outcome: Outcome)

  /** The LED command of a due battery check; a reading that raised sets nothing. */
  function BatteryTrace(i: Inputs): (t: seq<Command>)
    ensures |t| == 1 <==> i.batteryDue && i.voltage.Some?
    ensures |t| <= 1
    ensures forall k :: 0 <= k < |t| ==> t[k].SetFrontLed?
    ensures BatteryStops(i) ==> t == [SetFrontLed(Color(255, 0, 0))]
  {
    if i.batteryDue && i.voltage.Some? then [BatteryReport(i.voltage.value).led] else []
  }

  /** The battery check of this pass ends the program. */
  predicate BatteryStops(i: Inputs) {
    i.batteryDue && i.voltage.Some? && BatteryReport(i.voltage.value).stop
  }

  /** Button 1 goes down while no course runs. */
  predicate RisingEdge(s: State, i: Inputs) {
    !s.autoRunning && i.button1 && !s.previousButton
  }

  /** The pass starts the course: a rising edge, and the battery check did not stop the program. */
  predicate StartsCourse(s: State, i: Inputs) {
    RisingEdge(s, i) && !BatteryStops(i)
  }

  /** The course calls of a pass, if it starts the course. */
  function CoursePart(s: State, i: Inputs): seq<Command> {
    if StartsCourse(s, i) then RunCourse(s, i.toyHeading, i.fault).trace else []
  }

  /**
   The rest of a pass after the rising-edge check: while no course runs,
   R1/L1 adjust the base heading and the Y axis drives; otherwise the toy
   is told to brake.
   */
  function Manual(s: State, i: Inputs): (r: Step)
    ensures r.outcome == Continue
    ensures r.state.previousButton == s.previousButton
    ensures r.state.autoRunning == s.autoRunning
    ensures InRange(s.baseHeading) ==> InRange(r.state.baseHeading)
    ensures EndsStopped(r.trace)
  {
    if !s.autoRunning then
      var steered := Steer(s.baseHeading, i.r1, i.l1);
      var drive := ManualDrive(steered.heading, i.axisY);
      LastMotionAppend(steered.trace, drive);
      Step(s.(baseHeading := steered.heading), steered.trace + drive, Continue)
    else
      var t := [SetSpeed(0)];
      assert LastMotion(t) == Some(SetSpeed(0));
      Step(s, t, Continue)
  }

  /** One iteration of the `while` loop of `control_toy`. */
  function Tick(s: State, i: Inputs): (r: Step)
    ensures r.outcome == BatteryExit <==> BatteryStops(i)
    ensures r.outcome == CourseFault <==> StartsCourse(s, i) && !RunCourse(s, i.toyHeading, i.fault).completed
    ensures r.outcome == Continue ==> r.state.previousButton == i.button1
    ensures r.outcome == Continue ==> EndsStopped(r.trace)
    ensures !s.autoRunning ==> !r.state.autoRunning
    ensures InRange(s.baseHeading) ==> InRange(r.state.baseHeading)
  {
    if BatteryStops(i) then
      Step(s, BatteryTrace(i), BatteryExit)
    else if StartsCourse(s, i) && !RunCourse(s, i.toyHeading, i.fault).completed then
      Step(RunCourse(s, i.toyHeading, i.fault).after, BatteryTrace(i) + CoursePart(s, i), CourseFault)
    else
      var s1 := if StartsCourse(s, i) then RunCourse(s, i.toyHeading, i.fault).after else s;
      var rest := Manual(s1.(previousButton := i.button1), i);
      LastMotionAppend(BatteryTrace(i) + CoursePart(s, i), rest.trace);
      Step(rest.state, BatteryTrace(i) + CoursePart(s, i) + rest.trace, Continue)
  }

  /**
   While the course runs the joystick is locked out: a manual pass taken in
   that state only brakes, and leaves the base heading and button memory alone.
   */
  lemma DuringCourseBrakes(s: State, start: int, fault: Option<nat>, i: Inputs)
    ensures RunCourse(s, start, fault).during.autoRunning
    ensures Manual(RunCourse(s, start, fault).during, i).trace == [SetSpeed(0)]
    ensures Manual(RunCourse(s, start, fault).during, i).state == RunCourse(s, start, fault).during
  {
  }

  /**
   The loop goes on after a pass exactly when the battery check does not
   stop the program and, if the course starts, none of its calls fails.
   */
  predicate PassContinues(s: State, i: Inputs) {
    !BatteryStops(i) && (StartsCourse(s, i) ==> i.fault.None? || i.fault.value >= CourseCalls)
  }

  /** `PassContinues` is exactly the condition under which `Tick` goes on. */
  lemma TickContinuesIff(s: State, i: Inputs)
    ensures Tick(s, i).outcome == Continue <==> PassContinues(s, i)
  {
    CourseLength(i.toyHeading);
  }

  /**
   Between passes no course is running, so the braking branch for a
   running course is never taken: a pass that goes on is battery check,
   course if started, then R1/L1 and the Y axis on the new base heading.
   */
  lemma ValidTickSteers(s: State, i: Inputs)
    requires Valid(s)
    requires PassContinues(s, i)
    ensures Tick(s, i).trace
      == BatteryTrace(i) + CoursePart(s, i)
         + (Steer(s.baseHeading, i.r1, i.l1).trace
            + ManualDrive(Steer(s.baseHeading, i.r1, i.l1).heading, i.axisY))
    ensures Tick(s, i).state
      == State(Steer(s.baseHeading, i.r1, i.l1).heading, i.button1, false)
    ensures Valid(Tick(s, i).state)
  {
    TickContinuesIff(s, i);
    TickContinues(s, i);
    ManualSteers(s.(previousButton := i.button1), i);
  }

  /** A pass from a valid state that goes on runs the manual part on the same state. */
  lemma TickContinues(s: State, i: Inputs)
    requires Valid(s)
    requires PassContinues(s, i)
    ensures Tick(s, i)
      == var rest := Manual(s.(previousButton := i.button1), i);
         Step(rest.state, BatteryTrace(i) + CoursePart(s, i) + rest.trace, Continue)
  {
    TickContinuesIff(s, i);
    assert StartsCourse(s, i) ==> RunCourse(s, i.toyHeading, i.fault).after == s;
  }

  /** With no course running, the manual part steers and drives. */
  lemma ManualSteers(s: State, i: Inputs)
    requires !s.autoRunning
    ensures Manual(s, i)
      == var steered := Steer(s.baseHeading, i.r1, i.l1);
         Step(s.(baseHeading := steered.heading), steered.trace + ManualDrive(steered.heading, i.axisY), Continue)
  {
  }

  // ---------- many passes ----------

  /**
   The `while` loop for any pass function: the passes `ins` run in order,
   and the first one that does not continue ends the loop.
   */
  function Loop(pass: (State, Inputs) -> Step, s: State, ins: seq<Inputs>): State
    decreases |ins|
  {
    if ins == [] then s
    else
      var r := pass(s, ins[0]);
      if r.outcome == Continue then Loop(pass, r.state, ins[1..]) else r.state
  }

  /** How many passes the loop takes that satisfy `counted`, up to the one that ends it. */
  function Count(pass: (State, Inputs) -> Step, counted: (State, Inputs) -> bool,
                 s: State, ins: seq<Inputs>): (n: nat)
    ensures n <= |ins|
    decreases |ins|
  {
    if ins == [] then 0
    else
      var r := pass(s, ins[0]);
      (if counted(s, ins[0]) then 1 else 0)
        + (if r.outcome == Continue then Count(pass, counted, r.state, ins[1..]) else 0)
  }

  /** Every one of the passes `ins` lets the loop go on. */
  predicate Alive(pass: (State, Inputs) -> Step, s: State, ins: seq<Inputs>)
    decreases |ins|
  {
    ins == [] || (pass(s, ins[0]).outcome == Continue && Alive(pass, pass(s, ins[0]).state, ins[1..]))
  }

  /** Passes `a` then passes `b`: the loop picks up `b` where `a` left it. */
  lemma {:induction false} LoopAppend(pass: (State, Inputs) -> Step, counted: (State, Inputs) -> bool,
                                      s: State, a: seq<Inputs>, b: seq<Inputs>)
    requires Alive(pass, s, a)
    ensures Loop(pass, s, a + b) == Loop(pass, Loop(pass, s, a), b)
    ensures Count(pass, counted, s, a + b) == Count(pass, counted, s, a) + Count(pass, counted, Loop(pass, s, a), b)
    decreases |a|
  {
    if a == [] {
      assert a + b == b;
    } else {
      assert (a + b)[0] == a[0];
      assert (a + b)[1..] == a[1..] + b;
      LoopAppend(pass, counted, pass(s, a[0]).state, a[1..], b);
    }
  }

  /** Once a pass ends the loop, later passes change nothing and count for nothing. */
  lemma {:induction false} LoopStops(pass: (State, Inputs) -> Step, counted: (State, Inputs) -> bool,
                                     s: State, a: seq<Inputs>, b: seq<Inputs>)
    requires !Alive(pass, s, a)
    ensures Loop(pass, s, a + b) == Loop(pass, s, a)
    ensures Count(pass, counted, s, a + b) == Count(pass, counted, s, a)
    decreases |a|
  {
    assert (a + b)[0] == a[0];
    if pass(s, a[0]).outcome == Continue {
      assert (a + b)[1..] == a[1..] + b;
      LoopStops(pass, counted, pass(s, a[0]).state, a[1..], b);
    }
  }

  /** The controller after the passes `ins`, stopping at the first pass that ends the loop. */
  function Run(s: State, ins: seq<Inputs>): State {
    Loop(Tick, s, ins)
  }

  /** How many of the passes `ins` start the course. */
  function Starts(s: State, ins: seq<Inputs>): (n: nat)
    ensures n <= |ins|
  {
    Count(Tick, StartsCourse, s, ins)
  }

  /** None of the passes `ins` ends the loop. */
  predicate Survives(s: State, ins: seq<Inputs>) {
    Alive(Tick, s, ins)
  }

  /** The loop runs its passes one after the other, and the course starts add up. */
  lemma RunAppend(s: State, a: seq<Inputs>, b: seq<Inputs>)
    requires Survives(s, a)
    ensures Run(s, a + b) == Run(Run(s, a), b)
    ensures Starts(s, a + b) == Starts(s, a) + Starts(Run(s, a), b)
  {
    LoopAppend(Tick, StartsCourse, s, a, b);
  }

  /** Once a pass ends the loop, later passes change nothing and start nothing. */
  lemma RunStops(s: State, a: seq<Inputs>, b: seq<Inputs>)
    requires !Survives(s, a)
    ensures Run(s, a + b) == Run(s, a)
    ensures Starts(s, a + b) == Starts(s, a)
  {
    LoopStops(Tick, StartsCourse, s, a, b);
  }

  /** Every state the loop reaches from a valid one is valid. */
  lemma {:induction false} RunKeepsValid(s: State, ins: seq<Inputs>)
    requires Valid(s)
    ensures Valid(Run(s, ins))
    decreases |ins|
  {
    if ins != [] {
      var r := Tick(s, ins[0]);
      if r.outcome == Continue {
        RunKeepsValid(r.state, ins[1..]);
      }
    }
  }

  /** The loop starts out valid. */
  lemma InitialValid()
    ensures Valid(Initial)
  {
  }

  /**
   Holding button 1 down over consecutive passes starts the course at most
   once, and not at all if it was already down before.
   */
  lemma {:induction false} HeldButtonStartsOnce(s: State, ins: seq<Inputs>)
    requires Valid(s)
    requires forall k :: 0 <= k < |ins| ==> ins[k].button1
    ensures Starts(s, ins) <= 1
    ensures s.previousButton ==> Starts(s, ins) == 0
    decreases |ins|
  {
    if ins != [] {
      var r := Tick(s, ins[0]);
      if r.outcome == Continue {
        HeldButtonStartsOnce(r.state, ins[1..]);
      }
    }
  }

  /**
   A press after a release starts the course exactly once, however long
   the button is then held, as long as the battery check does not stop the
   program on the two passes around the press.
   */
  lemma PressStartsOnce(s: State, ins: seq<Inputs>)
    requires Valid(s)
    requires |ins| >= 2
    requires !ins[0].button1
    requires forall k :: 1 <= k < |ins| ==> ins[k].button1
    requires !BatteryStops(ins[0]) && !BatteryStops(ins[1])
    ensures Starts(s, ins) == 1
  {
    assert !StartsCourse(s, ins[0]);
    PressedStartsOnce(Tick(s, ins[0]).state, ins[1..]);
  }

  /** A pass that sees the button newly down starts the course, and holding it starts nothing more. */
  lemma PressedStartsOnce(s: State, ins: seq<Inputs>)
    requires Valid(s) && !s.previousButton
    requires ins != [] && !BatteryStops(ins[0])
    requires forall k :: 0 <= k < |ins| ==> ins[k].button1
    ensures Starts(s, ins) == 1
  {
    var r := Tick(s, ins[0]);
    assert StartsCourse(s, ins[0]);
    if r.outcome == Continue {
      HeldButtonStartsOnce(r.state, ins[1..]);
    }
  }
}

=== FILE: course.dfy ===
/**
 The autonomous course: a fixed list of stretches driven by dead reckoning.
 The first stretch keeps whatever heading the toy has; each later stretch
 first turns by a fixed relative angle and then rolls along the resulting
 absolute heading. The controller accumulates the heading without reducing
 it and reduces it modulo 360 only when a stretch hands it to the toy.
 */
module Course {
  import opened Heading
  import opened Trace
  import opened Motion

  /** One stretch after the first: turn by `turn` degrees, then cover `tiles` tiles. */
  datatype Leg = Leg(turn: int, tiles: real)

  /** Turning right is a positive relative angle, turning left a negative one. */
  const Right: int := 90
  const Left: int := -90

  /** The first stretch, driven without any heading command. */
  const FirstTiles: real := 4.5

  /** R90 4, R90 2, R90 2, L90 4, L90 2, R90 2, R90 4, R90 4. */
  const Legs: seq<Leg> := [
    Leg(Right, 4.0), Leg(Right, 2.0), Leg(Right, 2.0), Leg(Left, 4.0),
    Leg(Left, 2.0), Leg(Right, 2.0), Leg(Right, 4.0), Leg(Right, 4.0)]

  /** The net rotation of a list of legs. */
  function TurnSum(legs: seq<Leg>): int {
    if legs == [] then 0 else legs[0].turn + TurnSum(legs[1..])
  }

  /** Turns add up across concatenated lists of legs. */
  lemma {:induction false} TurnSumAppend(a: seq<Leg>, b: seq<Leg>)
    ensures TurnSum(a + b) == TurnSum(a) + TurnSum(b)
  {
    if a == [] {
      assert a + b == b;
    } else {
      assert (a + b)[1..] == a[1..] + b;
      TurnSumAppend(a[1..], b);
    }
  }

  /** The distances of all nine stretches, first to last. */
  function Distances(): (d: seq<real>)
    ensures d == [4.5, 4.0, 2.0, 2.0, 4.0, 2.0, 2.0, 4.0, 4.0]
  {
    [FirstTiles] + seq(|Legs|, i requires 0 <= i < |Legs| => Legs[i].tiles)
  }

  lemma TurnSumPrefix(legs: seq<Leg>, i: int)
    requires 0 <= i < |legs|
    ensures TurnSum(legs[..i + 1]) == legs[0].turn + TurnSum(legs[1..][..i])
  {
    assert legs[..i + 1][1..] == legs[1..][..i];
  }

  /** The unreduced heading of the i-th turning stretch, starting from `h`. */
  function LegHeading(h: int, legs: seq<Leg>, i: int): int
    requires 0 <= i < |legs|
  {
    h + TurnSum(legs[..i + 1])
  }

  lemma LegHeadingStep(h: int, legs: seq<Leg>, i: int)
    requires 1 <= i < |legs|
    ensures LegHeading(h, legs, i) == LegHeading(h + legs[0].turn, legs[1..], i - 1)
  {
    TurnSumPrefix(legs, i);
  }

  lemma LegHeadingFirst(h: int, legs: seq<Leg>)
    requires 0 < |legs|
    ensures LegHeading(h, legs, 0) == h + legs[0].turn
  {
    assert legs[..1] == [legs[0]];
    assert legs[..1][1..] == [];
    assert TurnSum(legs[..1][1..]) == 0;
  }

  /** The calls of the stretches in `legs`, starting from the unreduced heading `h`. */
  function LegsTrace(h: int, legs: seq<Leg>): (t: seq<Command>)
    ensures HeadingsInRange(t)
    ensures legs != [] ==> EndsStopped(t)
    decreases |legs|
  {
    if legs == [] then []
    else
      var first := RollAbs(h + legs[0].turn, legs[0].tiles, RunSpeed);
      var rest := LegsTrace(h + legs[0].turn, legs[1..]);
      HeadingsInRangeAppend(first, rest);
      LastMotionAppend(first, rest);
      first + rest
  }

  /** Every roll of the turning stretches follows its own turn and settle pause. */
  lemma {:induction false} LegsSettled(h: int, legs: seq<Leg>)
    ensures RollsSettled(LegsTrace(h, legs))
    decreases |legs|
  {
    if legs != [] {
      LegsSettled(h + legs[0].turn, legs[1..]);
      RollsSettledAppend(RollAbs(h + legs[0].turn, legs[0].tiles, RunSpeed),
                         LegsTrace(h + legs[0].turn, legs[1..]));
    }
  }

  /** The first turning stretch contributes one heading, in front of the rest. */
  lemma LegsHeadingsStep(h: int, legs: seq<Leg>)
    requires legs != []
    ensures Headings(LegsTrace(h, legs))
      == [SetHeading(Normalize(h + legs[0].turn))] + Headings(LegsTrace(h + legs[0].turn, legs[1..]))
  {
    FilterAppend(RollAbs(h + legs[0].turn, legs[0].tiles, RunSpeed),
                 LegsTrace(h + legs[0].turn, legs[1..]), HeadingCall);
    RollAbsCalls(h + legs[0].turn, legs[0].tiles, RunSpeed);
  }

  /** The first turning stretch contributes one roll, in front of the rest. */
  lemma LegsRollsStep(h: int, legs: seq<Leg>)
    requires legs != []
    ensures Rolls(LegsTrace(h, legs))
      == [Roll(RunSpeed, Normalize(h + legs[0].turn), TilesToSeconds(legs[0].tiles))]
         + Rolls(LegsTrace(h + legs[0].turn, legs[1..]))
  {
    FilterAppend(RollAbs(h + legs[0].turn, legs[0].tiles, RunSpeed),
                 LegsTrace(h + legs[0].turn, legs[1..]), RollCall);
    RollAbsCalls(h + legs[0].turn, legs[0].tiles, RunSpeed);
  }

  /** Prepending the first stretch's heading shifts every later stretch's heading by one. */
  lemma HeadingsShift(a: seq<Command>, b: seq<Command>, h: int, legs: seq<Leg>)
    requires legs != [] && |b| == |legs| - 1
    requires a == [SetHeading(Normalize(h + legs[0].turn))] + b
    requires forall i :: 0 <= i < |b| ==>
      b[i] == SetHeading(Normalize(LegHeading(h + legs[0].turn, legs[1..], i)))
    ensures |a| == |legs|
    ensures forall i :: 0 <= i < |legs| ==> a[i] == SetHeading(Normalize(LegHeading(h, legs, i)))
  {
    LegHeadingFirst(h, legs);
    forall i | 1 <= i < |legs|
      ensures a[i] == SetHeading(Normalize(LegHeading(h, legs, i)))
    {
      LegHeadingStep(h, legs, i);
      assert a[i] == b[i - 1];
    }
  }

  /** Prepending the first stretch's roll shifts every later stretch's roll by one. */
  lemma RollsShift(a: seq<Command>, b: seq<Command>, h: int, legs: seq<Leg>)
    requires legs != [] && |b| == |legs| - 1
    requires a == [Roll(RunSpeed, Normalize(h + legs[0].turn), TilesToSeconds(legs[0].tiles))] + b
    requires forall i :: 0 <= i < |b| ==>
      b[i] == Roll(RunSpeed, Normalize(LegHeading(h + legs[0].turn, legs[1..], i)), TilesToSeconds(legs[1..][i].tiles))
    ensures |a| == |legs|
    ensures forall i :: 0 <= i < |legs| ==>
      a[i] == Roll(RunSpeed, Normalize(LegHeading(h, legs, i)), TilesToSeconds(legs[i].tiles))
  {
    LegHeadingFirst(h, legs);
    forall i | 1 <= i < |legs|
      ensures a[i] == Roll(RunSpeed, Normalize(LegHeading(h, legs, i)), TilesToSeconds(legs[i].tiles))
    {
      LegHeadingStep(h, legs, i);
      assert a[i] == b[i - 1];
      assert legs[1..][i - 1] == legs[i];
    }
  }

  /** The headings the turning stretches should set, one per stretch, in order. */
  function HeadingPlan(h: int, legs: seq<Leg>): seq<Command>
    decreases |legs|
  {
    if legs == [] then []
    else [SetHeading(Normalize(h + legs[0].turn))] + HeadingPlan(h + legs[0].turn, legs[1..])
  }

  /** The rolls the turning stretches should issue, one per stretch, in order. */
  function RollPlan(h: int, legs: seq<Leg>): seq<Command>
    decreases |legs|
  {
    if legs == [] then []
    else [Roll(RunSpeed, Normalize(h + legs[0].turn), TilesToSeconds(legs[0].tiles))]
         + RollPlan(h + legs[0].turn, legs[1..])
  }

  /** The i-th planned heading is `h` plus the first i+1 turns. */
  lemma {:induction false} HeadingPlanAt(h: int, legs: seq<Leg>)
    ensures |HeadingPlan(h, legs)| == |legs|
    ensures forall i :: 0 <= i < |legs| ==>
      HeadingPlan(h, legs)[i] == SetHeading(Normalize(LegHeading(h, legs, i)))
    decreases |legs|
  {
    if legs != [] {
      HeadingPlanAt(h + legs[0].turn, legs[1..]);
      HeadingsShift(HeadingPlan(h, legs), HeadingPlan(h + legs[0].turn, legs[1..]), h, legs);
    }
  }

  /** The i-th planned roll follows the i-th planned heading for the i-th distance. */
  lemma {:induction false} RollPlanAt(h: int, legs: seq<Leg>)
    ensures |RollPlan(h, legs)| == |legs|
    ensures forall i :: 0 <= i < |legs| ==>
      RollPlan(h, legs)[i] == Roll(RunSpeed, Normalize(LegHeading(h, legs, i)), TilesToSeconds(legs[i].tiles))
    decreases |legs|
  {
    if legs != [] {
      RollPlanAt(h + legs[0].turn, legs[1..]);
      RollsShift(RollPlan(h, legs), RollPlan(h + legs[0].turn, legs[1..]), h, legs);
    }
  }

  /** The stretches set exactly the planned headings. */
  lemma {:induction false} LegsHeadingsPlan(h: int, legs: seq<Leg>)
    ensures Headings(LegsTrace(h, legs)) == HeadingPlan(h, legs)
    decreases |legs|
  {
    if legs != [] {
      LegsHeadingsStep(h, legs);
      LegsHeadingsPlan(h + legs[0].turn, legs[1..]);
    }
  }

  /** The stretches issue exactly the planned rolls. */
  lemma {:induction false} LegsRollsPlan(h: int, legs: seq<Leg>)
    ensures Rolls(LegsTrace(h, legs)) == RollPlan(h, legs)
    decreases |legs|
  {
    if legs != [] {
      LegsRollsStep(h, legs);
      LegsRollsPlan(h + legs[0].turn, legs[1..]);
    }
  }

  /**
   The i-th stretch turns to `h` plus the first i+1 relative turns, reduced
   modulo 360, and nothing else sets a heading.
   */
  lemma LegsHeadings(h: int, legs: seq<Leg>)
    ensures |Headings(LegsTrace(h, legs))| == |legs|
    ensures forall i :: 0 <= i < |legs| ==>
      Headings(LegsTrace(h, legs))[i] == SetHeading(Normalize(LegHeading(h, legs, i)))
  {
    LegsHeadingsPlan(h, legs);
    HeadingPlanAt(h, legs);
  }

  /**
   The i-th stretch rolls at RunSpeed along the heading it has just turned
   to, for the time its own distance takes.
   */
  lemma LegsRolls(h: int, legs: seq<Leg>)
    ensures |Rolls(LegsTrace(h, legs))| == |legs|
    ensures forall i :: 0 <= i < |legs| ==>
      Rolls(LegsTrace(h, legs))[i]
        == Roll(RunSpeed, Normalize(LegHeading(h, legs, i)), TilesToSeconds(legs[i].tiles))
  {
    LegsRollsPlan(h, legs);
    RollPlanAt(h, legs);
  }

  /** The accumulated turn, relative to the start heading, of each turning stretch. */
  const Offsets: seq<int> := [90, 180, 270, 180, 90, 180, 270, 360]

  /**
   Right, right, right, left, left, right, right, right: the accumulated
   turns are the offsets above, ending in one full turn.
   */
  lemma CourseTurns()
    ensures |Legs| == |Offsets| == 8
    ensures forall i :: 0 <= i < |Legs| ==> TurnSum(Legs[..i + 1]) == Offsets[i]
    ensures TurnSum(Legs) == 360
  {
    forall i | 0 <= i < |Legs|
      ensures TurnSum(Legs[..i + 1]) == TurnSum(Legs[..i]) + Legs[i].turn
    {
      assert Legs[..i + 1] == Legs[..i] + [Legs[i]];
      TurnSumAppend(Legs[..i], [Legs[i]]);
    }
    assert Legs[..0] == [];
    assert TurnSum(Legs[..1]) == 90;
    assert TurnSum(Legs[..2]) == 180;
    assert TurnSum(Legs[..3]) == 270;
    assert TurnSum(Legs[..4]) == 180;
    assert TurnSum(Legs[..5]) == 90;
    assert TurnSum(Legs[..6]) == 180;
    assert TurnSum(Legs[..7]) == 270;
    assert TurnSum(Legs[..8]) == 360;
    assert Legs[..8] == Legs;
  }

  /**
   `run_course` as a command trace, for the heading `start` read from the
   toy: the first stretch, the eight turning stretches, a final stop.
   */
  function CourseTrace(start: int): (t: seq<Command>)
    ensures |t| > 0 && t[|t| - 1] == SetSpeed(0)
    ensures HeadingsInRange(t)
  {
    var first := DriveKeepHeading(FirstTiles, RunSpeed);
    var legs := LegsTrace(start, Legs);
    HeadingsInRangeAppend(first, legs);
    HeadingsInRangeAppend(first + legs, [SetSpeed(0)]);
    first + legs + [SetSpeed(0)]
  }

  /** Each turning stretch makes six calls. */
  lemma {:induction false} LegsLength(h: int, legs: seq<Leg>)
    ensures |LegsTrace(h, legs)| == 6 * |legs|
    decreases |legs|
  {
    if legs != [] {
      LegsLength(h + legs[0].turn, legs[1..]);
    }
  }

  /** Calls the course makes when none fails: 5 + 8 * 6 + the final stop. */
  const CourseCalls: nat := 54

  /** The course always makes the same number of calls, whatever the start heading. */
  lemma CourseLength(start: int)
    ensures |CourseTrace(start)| == CourseCalls
  {
    LegsLength(start, Legs);
  }

  /** Only the turning stretches set headings. */
  lemma CourseHeadingsSplit(start: int)
    ensures Headings(CourseTrace(start)) == Headings(LegsTrace(start, Legs))
  {
    var first := DriveKeepHeading(FirstTiles, RunSpeed);
    var legs := LegsTrace(start, Legs);
    assert CourseTrace(start) == first + legs + [SetSpeed(0)];
    FilterAppend(first, legs, HeadingCall);
    FilterAppend(first + legs, [SetSpeed(0)], HeadingCall);
    assert Filter(first, HeadingCall) == [];
    assert Filter([SetSpeed(0)], HeadingCall) == [];
  }

  /** Only the turning stretches roll. */
  lemma CourseRollsSplit(start: int)
    ensures Rolls(CourseTrace(start)) == Rolls(LegsTrace(start, Legs))
  {
    var first := DriveKeepHeading(FirstTiles, RunSpeed);
    var legs := LegsTrace(start, Legs);
    assert CourseTrace(start) == first + legs + [SetSpeed(0)];
    FilterAppend(first, legs, RollCall);
    FilterAppend(first + legs, [SetSpeed(0)], RollCall);
    assert Filter(first, RollCall) == [];
    assert Filter([SetSpeed(0)], RollCall) == [];
  }

  /**
   The course turns eight times, each time to the start heading plus the
   accumulated turn, reduced modulo 360; the last turn points the toy the
   way it started.
   */
  lemma CourseHeadings(start: int)
    ensures |Headings(CourseTrace(start))| == 8
    ensures forall i :: 0 <= i < 8 ==>
      Headings(CourseTrace(start))[i] == SetHeading(Normalize(start + Offsets[i]))
    ensures Headings(CourseTrace(start))[7] == SetHeading(Normalize(start))
  {
    CourseHeadingsSplit(start);
    LegsHeadings(start, Legs);
    CourseTurns();
    forall i | 0 <= i < 8
      ensures Headings(CourseTrace(start))[i] == SetHeading(Normalize(start + Offsets[i]))
    {
      assert LegHeading(start, Legs, i) == start + Offsets[i];
    }
    NormalizeFullTurns(start, 1);
  }

  /**
   The course rolls eight times, each along the heading it has just turned
   to, for the time the stretch's distance takes, at RunSpeed.
   */
  lemma CourseRolls(start: int)
    ensures |Rolls(CourseTrace(start))| == 8
    ensures forall i :: 0 <= i < 8 ==>
      Rolls(CourseTrace(start))[i]
        == Roll(RunSpeed, Normalize(start + Offsets[i]), TilesToSeconds(Distances()[i + 1]))
  {
    CourseRollsSplit(start);
    LegsRolls(start, Legs);
    CourseTurns();
    forall i | 0 <= i < 8
      ensures Rolls(CourseTrace(start))[i]
        == Roll(RunSpeed, Normalize(start + Offsets[i]), TilesToSeconds(Distances()[i + 1]))
    {
      assert LegHeading(start, Legs, i) == start + Offsets[i];
      assert Distances()[i + 1] == Legs[i].tiles;
    }
  }

  /**
   The first stretch sets no heading: it drives along the heading the toy
   already has, for the time 4.5 tiles take, and stops.
   */
  lemma CourseFirstStretch(start: int)
    ensures CourseTrace(start)[..5] == DriveKeepHeading(Distances()[0], RunSpeed)
    ensures forall i :: 0 <= i < 5 ==> !CourseTrace(start)[i].SetHeading?
    ensures CourseTrace(start)[1] == SetSpeed(RunSpeed)
    ensures CourseTrace(start)[2] == Sleep(TilesToSeconds(4.5))
    ensures CourseTrace(start)[3] == SetSpeed(0)
  {
  }

  /**
   Every roll of the course comes right after a turn to its own heading and
   the settle pause: the first stretch and the final stop do not roll.
   */
  lemma CourseSettled(start: int)
    ensures RollsSettled(CourseTrace(start))
  {
    var first := DriveKeepHeading(FirstTiles, RunSpeed);
    var legs := LegsTrace(start, Legs);
    LegsSettled(start, Legs);
    RollsSettledAppend(first, legs);
    RollsSettledAppend(first + legs, [SetSpeed(0)]);
  }

  /**
   The course turns before each of its eight rolls: the i-th roll runs along
   the i-th heading set, and the turn to it and the settle pause come right
   before the roll.
   */
  lemma CourseRollsFollowHeadings(start: int)
    ensures |Rolls(CourseTrace(start))| == |Headings(CourseTrace(start))| == 8
    ensures forall i :: 0 <= i < 8 ==>
      Rolls(CourseTrace(start))[i].heading == Headings(CourseTrace(start))[i].heading
    ensures RollsSettled(CourseTrace(start))
  {
    CourseRolls(start);
    CourseHeadings(start);
    CourseSettled(start);
  }
}

=== FILE: heading.dfy ===
/**
 Compass headings in whole degrees. The controller keeps relative and
 accumulated headings as unbounded integers and reduces them modulo 360
 only where a heading is handed to the toy (Python's `%` with a positive
 divisor never yields a negative result, exactly like Dafny's `%` on `int`).
 */
module Heading {

  /** A heading the toy accepts: a whole degree in [0, 360). */
  predicate InRange(h: int) {
    0 <= h < 360
  }

  /** Two headings that point the same way. */
  predicate SameDirection(a: int, b: int) {
    (a - b) % 360 == 0
  }

  /** `int(h) % 360`: the heading in [0, 360) that points the same way as `h`. */
  function Normalize(h: int): (r: int)
    ensures InRange(r)
    ensures SameDirection(h, r)
    ensures InRange(h) ==> r == h
  {
    h % 360
  }

  /** The congruence class of a heading determines its normal form uniquely. */
  lemma NormalizeUnique(h: int, r: int)
    requires InRange(r) && SameDirection(h, r)
    ensures Normalize(h) == r
  {
  }

  /** Reducing before or after adding a relative turn gives the same heading. */
  lemma NormalizeAdd(h: int, d: int)
    ensures Normalize(Normalize(h) + d) == Normalize(h + d)
  {
    NormalizeUnique(Normalize(h) + d, Normalize(h + d));
  }

  /** Whole turns do not change where a heading points. */
  lemma NormalizeFullTurns(h: int, k: int)
    ensures Normalize(h + 360 * k) == Normalize(h)
  {
    NormalizeUnique(h + 360 * k, Normalize(h));
  }
}

=== FILE: motion.dfy ===
/**
 The controller's tuning constants and its small helpers: the joystick dead
 zone, the tiles-to-seconds conversion of dead reckoning, and the three
 segment helpers that turn one stretch of the course into SDK calls.
 Joystick axes, voltages and durations are floats in the program; here they
 are exact reals.
 */
module Motion {
  import opened Wrappers
  import opened Heading
  import opened Trace

  /** One floor tile, in centimetres. */
  const TileCm: real := 50.0
  /** Speed (0..255) used for every autonomous stretch. */
  const RunSpeed: int := 60
  /** Assumed ground speed at RunSpeed, in centimetres per second. */
  const SpeedCmPerS: real := 30.0
  /** Below 1.0 so that the toy rather stops short than overshoots. */
  const Safety: real := 0.95
  /** Pause after a heading change, in seconds. */
  const HeadingSettle: real := 0.30
  /** Pause after stopping at the end of a stretch, in seconds. */
  const StopPause: real := 0.15
  /** Joystick dead zone. */
  const Deadzone: real := 0.15
  /** Floor of the divisor in the conversion, guarding against a zero speed. */
  const MinSpeed: real := 0.000001

  function Abs(v: real): real {
    if v < 0.0 then -v else v
  }

  function Max(a: real, b: real): real {
    if a >= b then a else b
  }

  /** `_dz`: joystick readings inside the dead zone count as centred. */
  function Dz(v: real): (r: real)
    ensures Abs(v) < Deadzone ==> r == 0.0
    ensures Abs(v) >= Deadzone ==> r == v
  {
    if Abs(v) < Deadzone then 0.0 else v
  }

  /** Filtering twice is filtering once. */
  lemma DzIdempotent(v: real)
    ensures Dz(Dz(v)) == Dz(v)
  {
  }

  /**
   The dead zone lies strictly inside the manual-drive thresholds, so
   filtering never changes which way a reading dispatches.
   */
  lemma DzKeepsDispatch(v: real, threshold: real)
    requires threshold >= Deadzone
    ensures Dz(v) < -threshold <==> v < -threshold
    ensures Dz(v) > threshold <==> v > threshold
  {
  }

  /**
   `_tiles_to_seconds`: how long to roll at RunSpeed to cover `tiles` tiles,
   shortened by the safety factor. The speed floor never applies, because
   the configured speed is far above it.
   */
  function TilesToSeconds(tiles: real): (secs: real)
    ensures secs == tiles * 19.0 / 12.0
    ensures tiles >= 0.0 ==> secs >= 0.0
  {
    (tiles * TileCm / Max(MinSpeed, SpeedCmPerS)) * Safety
  }

  /** The conversion is linear in the distance. */
  lemma TilesToSecondsLinear(a: real, b: real, k: real)
    ensures TilesToSeconds(a + b) == TilesToSeconds(a) + TilesToSeconds(b)
    ensures TilesToSeconds(k * a) == k * TilesToSeconds(a)
  {
    assert TilesToSeconds(k * a) * SpeedCmPerS == (k * TilesToSeconds(a)) * SpeedCmPerS;
  }

  /** A longer stretch never takes less time. */
  lemma TilesToSecondsMonotone(a: real, b: real)
    requires a <= b
    ensures TilesToSeconds(a) <= TilesToSeconds(b)
  {
  }

  /**
   Every roll in `t` comes right after a turn to the heading it rolls along
   and the settle pause, so the toy already faces that way when it starts.
   */
  predicate RollsSettled(t: seq<Command>) {
    forall j :: 0 <= j < |t| && t[j].Roll? ==>
      2 <= j && t[j - 2] == SetHeading(t[j].heading) && t[j - 1] == Sleep(HeadingSettle)
  }

  /** Joining two traces whose rolls are settled keeps every roll settled. */
  lemma RollsSettledAppend(a: seq<Command>, b: seq<Command>)
    requires RollsSettled(a) && RollsSettled(b)
    ensures RollsSettled(a + b)
  {
    forall j | 0 <= j < |a + b| && (a + b)[j].Roll?
      ensures 2 <= j && (a + b)[j - 2] == SetHeading((a + b)[j].heading)
      ensures (a + b)[j - 1] == Sleep(HeadingSettle)
    {
      if j < |a| {
        assert (a + b)[j] == a[j];
        assert (a + b)[j - 2] == a[j - 2] && (a + b)[j - 1] == a[j - 1];
      } else {
        var k := j - |a|;
        assert (a + b)[j] == b[k];
        assert (a + b)[j - 2] == b[k - 2] && (a + b)[j - 1] == b[k - 1];
      }
    }
  }

  /**
   `_drive_keep_heading`: stop, drive at `speed` along whatever heading the
   toy already has for the converted duration, stop, pause.
   */
  function DriveKeepHeading(tiles: real, speed: int): (t: seq<Command>)
    ensures forall i :: 0 <= i < |t| ==> !t[i].SetHeading? && !t[i].Roll?
    ensures exists j :: 0 <= j && j + 2 < |t| && t[j] == SetSpeed(speed) &&
                        t[j + 1] == Sleep(TilesToSeconds(tiles)) && t[j + 2] == SetSpeed(0)
    ensures forall k :: 0 <= k < |t| && t[k].SetSpeed? && t[k].speed != 0 ==> k == 1
    ensures EndsStopped(t)
  {
    var t := [SetSpeed(0), SetSpeed(speed), Sleep(TilesToSeconds(tiles)), SetSpeed(0), Sleep(StopPause)];
    assert t[1] == SetSpeed(speed) && t[2] == Sleep(TilesToSeconds(tiles)) && t[3] == SetSpeed(0);
    assert EndsStopped(t);
    t
  }

  /** `_drive_keep_heading` neither turns nor rolls, so it leaves the toy's heading as it was. */
  lemma DriveKeepHeadingCalls(tiles: real, speed: int)
    ensures Headings(DriveKeepHeading(tiles, speed)) == []
    ensures Rolls(DriveKeepHeading(tiles, speed)) == []
  {
  }

  /**
   `_roll_abs`: stop, turn to the absolute heading `h` (reduced modulo 360),
   let the heading settle, roll along that same heading for the converted
   duration, stop, pause.
   */
  function RollAbs(h: int, tiles: real, speed: int): (t: seq<Command>)
    ensures HeadingsInRange(t)
    ensures EndsStopped(t)
    ensures RollsSettled(t)
  {
    var t := [SetSpeed(0), SetHeading(Normalize(h)), Sleep(HeadingSettle),
              Roll(speed, Normalize(h), TilesToSeconds(tiles)), SetSpeed(0), Sleep(StopPause)];
    assert EndsStopped(t);
    t
  }

  /**
   `_roll_abs` turns exactly once and rolls exactly once, both along `h`
   reduced modulo 360, and the roll lasts as long as `tiles` tiles take.
   */
  lemma RollAbsCalls(h: int, tiles: real, speed: int)
    ensures Headings(RollAbs(h, tiles, speed)) == [SetHeading(Normalize(h))]
    ensures Rolls(RollAbs(h, tiles, speed)) == [Roll(speed, Normalize(h), TilesToSeconds(tiles))]
  {
    var t := RollAbs(h, tiles, speed);
    FilterOne(t, 1, HeadingCall);
    FilterOne(t, 3, RollCall);
  }

  /** `_turn_abs`: stop and turn to the absolute heading `h`, without driving. */
  function TurnAbs(h: int): (t: seq<Command>)
    ensures forall i :: 0 <= i < |t| ==> !t[i].Roll? && (t[i].SetSpeed? ==> t[i].speed == 0)
    ensures LastMotion(t) == Some(SetHeading(Normalize(h)))
    ensures SetSpeed(0) in t
    ensures HeadingsInRange(t)
  {
    [SetSpeed(0), SetHeading(Normalize(h)), Sleep(HeadingSettle)]
  }

  /** `_turn_abs` turns exactly once, to `h` reduced modulo 360. */
  lemma TurnAbsCalls(h: int)
    ensures Headings(TurnAbs(h)) == [SetHeading(Normalize(h))]
  {
    FilterOne(TurnAbs(h), 1, HeadingCall);
  }
}

=== FILE: trace.dfy ===
/**
 The toy's SDK seen from the controller: every call the controller makes on
 the connection handle, plus the pauses it takes, recorded in order as a
 command trace. A trace is what the controller did; nothing here models how
 the toy reacts.
 */
module Trace {
  import opened Wrappers
  import opened Heading

  /** An RGB colour for the front LED, each channel 0..255. */
  datatype Color = Color(r: int, g: int, b: int)

  datatype Command =
    | SetSpeed(speed: int)
    | SetHeading(heading: int)
    /** The three arguments in the order the controller passes them. */
    | Roll(speed: int, heading: int, secs: real)
    | Sleep(secs: real)
    | SetFrontLed(color: Color)

  /** The two kinds of call a trace is queried for. */
  datatype Kind = HeadingCall | RollCall

  predicate OfKind(c: Command, k: Kind) {
    match k
    case HeadingCall => c.SetHeading?
    case RollCall => c.Roll?
  }

  /** Commands that change how the toy moves (speed, heading, a timed roll). */
  predicate IsMotion(c: Command) { c.SetSpeed? || c.SetHeading? || c.Roll? }

  /** The commands of `t` that satisfy kind `k`, in their original order. */
  function Filter(t: seq<Command>, k: Kind): (r: seq<Command>)
    ensures |r| <= |t|
    ensures forall c :: c in r ==> c in t && OfKind(c, k)
    ensures (forall i :: 0 <= i < |t| ==> !OfKind(t[i], k)) ==> r == []
  {
    if t == [] then []
    else (if OfKind(t[0], k) then [t[0]] else []) + Filter(t[1..], k)
  }

  /** Filtering distributes over the concatenation of two traces. */
  lemma {:induction false} FilterAppend(a: seq<Command>, b: seq<Command>, k: Kind)
    ensures Filter(a + b, k) == Filter(a, k) + Filter(b, k)
  {
    if a == [] {
      assert a + b == b;
    } else {
      assert (a + b)[1..] == a[1..] + b;
      FilterAppend(a[1..], b, k);
    }
  }

  /** A trace in which exactly one command passes kind `k` filters down to that command. */
  lemma {:induction false} FilterOne(t: seq<Command>, i: int, k: Kind)
    requires 0 <= i < |t| && OfKind(t[i], k)
    requires forall j :: 0 <= j < |t| && j != i ==> !OfKind(t[j], k)
    ensures Filter(t, k) == [t[i]]
  {
    if i == 0 {
      assert forall j :: 0 <= j < |t[1..]| ==> !OfKind(t[1..][j], k);
    } else {
      assert t[1..][i - 1] == t[i];
      FilterOne(t[1..], i - 1, k);
    }
  }

  /** The set_heading calls of a trace, in order. */
  function Headings(t: seq<Command>): (r: seq<Command>)
    ensures forall c :: c in r ==> c.SetHeading? && c in t
  {
    Filter(t, HeadingCall)
  }

  /** The roll calls of a trace, in order. */
  function Rolls(t: seq<Command>): (r: seq<Command>)
    ensures forall c :: c in r ==> c.Roll? && c in t
  {
    Filter(t, RollCall)
  }

  /** A command that carries a heading carries one the toy accepts. */
  predicate HeadingOk(c: Command) {
    (c.SetHeading? || c.Roll?) ==> InRange(c.heading)
  }

  /** Every heading the trace hands to the toy lies in [0, 360). */
  predicate HeadingsInRange(t: seq<Command>) {
    forall i :: 0 <= i < |t| ==> HeadingOk(t[i])
  }

  /** The last motion command of a trace, skipping pauses and LED changes. */
  function LastMotion(t: seq<Command>): (r: Option<Command>)
    ensures r.Some? ==> IsMotion(r.value) && r.value in t
    ensures r.None? <==> forall i :: 0 <= i < |t| ==> !IsMotion(t[i])
  {
    if t == [] then None
    else if IsMotion(t[|t| - 1]) then Some(t[|t| - 1])
    else LastMotion(t[..|t| - 1])
  }

  /** The command LastMotion picks is a motion command with no motion command after it. */
  lemma {:induction false} LastMotionIsLast(t: seq<Command>)
    requires LastMotion(t).Some?
    ensures exists j :: 0 <= j < |t| && t[j] == LastMotion(t).value &&
                        forall k :: j < k < |t| ==> !IsMotion(t[k])
  {
    var n := |t| - 1;
    if IsMotion(t[n]) {
      assert t[n] == LastMotion(t).value;
    } else {
      LastMotionIsLast(t[..n]);
      var j :| 0 <= j < n && t[..n][j] == LastMotion(t).value &&
               forall k :: j < k < n ==> !IsMotion(t[..n][k]);
      assert t[j] == t[..n][j];
      forall k | j < k < |t| ensures !IsMotion(t[k]) {
        if k < n {
          assert t[k] == t[..n][k];
        }
      }
    }
  }

  /** A trace after which the toy has been told to stand still. */
  predicate EndsStopped(t: seq<Command>) {
    LastMotion(t) == Some(SetSpeed(0))
  }

  /** Appending a trace that moves the toy makes its last motion the last motion. */
  lemma {:induction false} LastMotionAppend(a: seq<Command>, b: seq<Command>)
    ensures LastMotion(b).Some? ==> LastMotion(a + b) == LastMotion(b)
    ensures LastMotion(b).None? ==> LastMotion(a + b) == LastMotion(a)
  {
    if b == [] {
      assert a + b == a;
    } else {
      assert (a + b)[..|a + b| - 1] == a + b[..|b| - 1];
      LastMotionAppend(a, b[..|b| - 1]);
    }
  }

  lemma HeadingsInRangeAppend(a: seq<Command>, b: seq<Command>)
    ensures HeadingsInRange(a + b) <==> HeadingsInRange(a) && HeadingsInRange(b)
  {
    if HeadingsInRange(a + b) {
      forall i | 0 <= i < |a| ensures HeadingOk(a[i]) {
        assert (a + b)[i] == a[i];
      }
      forall i | 0 <= i < |b| ensures HeadingOk(b[i]) {
        assert (a + b)[|a| + i] == b[i];
      }
    }
  }
}

=== FILE: wrappers.dfy ===
/** A value that may be missing: a failed sensor read, or no injected fault. */
module Wrappers {

  datatype Option<+T> = None | Some(value: T)
}
